=== FILE: README.md ===
# IoT sensor anomaly pipeline: the per-batch consumers

This project models the two consumers of the sensor-telemetry stream of the
IoT anomaly-detection pipeline, and proves what they do with one delivered
batch of events.

- **The asynchronous stream consumer** (`process_event_batch`):
  - It decodes each event's JSON reading.
  - It posts the reading, minus three raw fields, to the inference service.
  - It falls back to a fail-open verdict (`is_anomaly = False`,
    `anomaly_score = -999.0`) when the call fails.
  - It builds a record: the reading plus a synthesized
    `{unit_number}-{time_in_cycles}-{event_timestamp}-{message_id}` id and
    the verdict.
  - It upserts the accumulated records one by one into the document
    container, then checkpoints the last event of the batch.
- **The serverless Functions consumer** (`ConsumeEventHubData`):
  - It resolves the container once per invocation.
  - It classifies each reading with a fixed threshold rule
    (`sensor_2 > 800`).
  - It builds a nine-field record, which includes a sample of the reading's
    first five fields.
  - It upserts the records one by one.

Files:

| file | module | contents |
|---|---|---|
| `wrappers.dfy` | `Wrappers` | `Option`, and `FilterMap`: the results of an optional-valued function over a sequence, in order |
| `json.dfy` | `Json` | JSON values. Python dicts as insertion-ordered association lists, with `d[k] = v` (`Set`) and `del d[k]` (`Delete`) characterised through lookup. |
| `pytext.dfy` | `PyText` | Python's `str()` of JSON values, as used by the f-string that builds the document id |
| `readings.dfy` | `Readings` | delivered events and their bodies, the synthesized id, the verdict, the int-to-float overflow bound |
| `cosmos.dfy` | `Cosmos` | the container as a map from id to document, upsert-by-id, and the `Container` class whose `UpsertAll` runs the write loop |
| `event_consumer.dfy` | `EventConsumer` | the stream consumer, with the `Consumer` class holding the partition checkpoint |
| `function_app.dfy` | `FunctionApp` | the Functions consumer, with the `App` class holding the module-level Cosmos client |

## How the environment enters the model

The model takes everything outside the two handlers as inputs:

- `outcomes[j]` is what the inference call for event j gives: it raised,
  or it returned a decoded JSON body.
- `failAt` is the index of the first upsert that raises, if any.
- The container and HTTP session are either present or absent (null).
- `lookupFails` says whether the Functions consumer's database/container
  lookup raises.
- The endpoint URL is an `Option<string>` read from the environment.

Each event is a sequence number and a body:

- `Unreadable`: the bytes are not UTF-8 text.
- `Text(None)`: `json.loads` raises.
- `Text(Some(v))`: `json.loads` returns `v`.

## Model

| member | source | states |
|---|---|---|
| Json.Set | event_consumer.py:168-172 | After `d[k] = v`, looking up k finds v and every other key finds what it found before. Keys stay unique. The dict grows by one entry exactly when k is new. |
| Json.Delete | event_consumer.py:174-176 | After `del d[k]`, k is absent and every other key finds what it found before. Keys stay unique and the dict does not grow. |
| PyText.ToStr | event_consumer.py:168 | `str()` prints None as `None`, a bool as `True` or `False`, and a string as itself. An int prints as decimal digits that read back to it, after a `-` when it is negative. |
| PyText.FloatStr | event_consumer.py:168 | `str()` of a float is a fixed-point `a.b`, with a digit on each side of the point, that denotes the float exactly. A negative float prints `-` before the text of its magnitude. |
| PyText.FloatTextValue | event_consumer.py:168 | The printed float, with its trailing fraction zeros dropped, still denotes exactly digits * 10^-scale; a negative one is `-` followed by the text of its magnitude. |
| PyText.NonNegativeFloatText | event_consumer.py:168 | Dropping trailing fraction zeros keeps the value a non-negative float's text denotes. |
| PyText.NegativeFloatText | event_consumer.py:168 | A negative float prints as `-` followed by the text of its magnitude. |
| PyText.UnsignedFloatTextValue | event_consumer.py:168 | The zero-padded fixed-point text has a digit on each side of the point and denotes n * 10^-scale. |
| PyText.ZeroPad | event_consumer.py:168 | Padding with leading zeros reaches the width and keeps the digits' value. |
| PyText.DecimalRoundTrip | event_consumer.py:168 | Reading back the decimal digits printed for a non-negative int gives that int. |
| Readings.SynthesizedId | event_consumer.py:168 | When `unit_number` (the partition key) is a non-negative int, the id's leading digits read back to it. |
| Readings.SameFieldsSameId | iot-anomaly-function/function_app.py:74 | Readings that agree on the four id fields get the same id, whatever else they carry. |
| Readings.AbsentFieldsPrintNone | event_consumer.py:168 | A reading whose four id fields are absent or null gets the id `None-None-None-None`. |
| Readings.IdIsNotInjective | event_consumer.py:168 | Two readings whose timestamps and message ids differ can get the same id. `-` both separates the fields and occurs inside them. |
| Cosmos.UpsertedIds | event_consumer.py:218-219 | After the upserts, the container holds exactly its old ids plus the ids of the upserted documents. |
| Cosmos.LastUpsertWins | event_consumer.py:218-219 | An id holds the last upserted document that carries it. |
| Cosmos.UntouchedIds | event_consumer.py:218-219 | A document whose id no upserted document carries stays as it was. It is present after the upserts if and only if it was present before. |
| Cosmos.UpsertsMerge | event_consumer.py:218-219 | Upserting a sequence overrides the container with that sequence's own net effect. |
| Cosmos.RedeliveryIsIdempotent | event_consumer.py:218-219 | Upserting the same records a second time, as after a redelivery, changes nothing. |
| Cosmos.Container.UpsertAll | event_consumer.py:216-222 | The upserts run in order until the first one that raises. The new contents are the old ones with exactly the upserts before the failure applied. The result counts them. |
| EventConsumer.InferenceInput | event_consumer.py:140-143 | The posted body is the reading without `raw_message_id`, `raw_data_sample` and `sensor_2_value`, with every other field unchanged. Its key set is the reading's minus those three. |
| EventConsumer.InferenceRequest | event_consumer.py:127-146 | An object reading is posted without the three raw fields and with every other field unchanged. A JSON array is posted as it is exactly when it holds none of the three key strings. Nothing else is posted. |
| EventConsumer.Classify | event_consumer.py:145-163 | The verdict is the service's `is_anomaly` and `anomaly_score` (defaults `False` and `0.0`) when the score can be printed with `:.4f`. Otherwise it is the fail-open verdict: after a failed call, after a non-object response, or for an unprintable score. The recorded score always prints with `:.4f`. |
| EventConsumer.ConsumerRecord | event_consumer.py:166-176 | The record carries the synthesized id, the verdict's two fields and the reading's `unit_number`. The three raw fields are absent. Every other field is the reading's own. |
| EventConsumer.ConsumerRecordKeys | event_consumer.py:166-176 | The record's keys are the reading's keys plus `id`, `is_anomaly`, `anomaly_score` and `unit_number`, minus the three raw fields. |
| EventConsumer.RecordFor | event_consumer.py:126-178 | An event yields a record exactly when its payload is a JSON object. The record carries the reading's synthesized id and the verdict of the event's own inference outcome. |
| EventConsumer.Requests | event_consumer.py:126-146 | At most one inference request is posted per event, in delivery order. |
| EventConsumer.Records | event_consumer.py:126-178 | At most one record per event, in delivery order, each with a string id. |
| EventConsumer.SkippedEventIsIsolated | event_consumer.py:126-213 | In `Records`, an event that yields no record leaves the records of the events around it as they would be without it. `Records` is the batch's result whenever the first body is readable. Behind another event, the skipped event also does not change whether the batch raises. |
| EventConsumer.FrontEventDecidesRaise | event_consumer.py:126-213 | At the front of a batch, an event without a record is not isolated. An unreadable first body makes the batch raise. A readable first body, even one that is not JSON, binds `event_body`, so a later unreadable body no longer raises. |
| EventConsumer.EveryReadingIsRecorded | event_consumer.py:126-178 | When every payload is a JSON object, event j gives record j, built from its own reading and its own inference outcome. |
| EventConsumer.OutageRecordsEveryReadingWithSentinel | event_consumer.py:155-163 | With the inference service down for a whole batch of readings, every reading is still recorded, each with `is_anomaly = False` and `anomaly_score = -999.0`. |
| EventConsumer.RecordIdsIgnoreOutcomes | event_consumer.py:166-178 | The same events with different inference outcomes give records with the same ids, in the same places. |
| EventConsumer.RecordIdSetsAgree | event_consumer.py:166-178 | The same events with any two sequences of inference outcomes give records with the same set of ids. |
| EventConsumer.RedeliveryAddsNoDocument | event_consumer.py:216-219 | After a first delivery that wrote all its records, redelivering the batch adds no document. This holds even when the batch is classified differently the second time: every record it writes replaces one the first delivery wrote. |
| EventConsumer.PartialRedeliveryAddsNoDocument | event_consumer.py:216-222 | Both deliveries may stop after any number of records, as when an upsert raises or the process stops before the checkpoint. Even then, the container ends with no id outside those one complete delivery gives: records are overwritten, never duplicated. |
| EventConsumer.CollectRecords | event_consumer.py:126-213 | The loop raises exactly when the first event's body cannot be read: the handler then reads the unbound `event_body`. Otherwise it posts the requests and accumulates the records of the whole batch. |
| EventConsumer.Consumer.ProcessEventBatch | event_consumer.py:105-228 | There are four outcomes. With no container, or no endpoint or session, it returns at once. If the first body is unreadable, the batch raises with nothing written and no checkpoint. Otherwise the records are upserted up to the first failing write, and the checkpoint moves to the last event whatever the writes did. |
| FunctionApp.ThresholdRule | iot-anomaly-function/function_app.py:62-69 | A reading is anomalous exactly when `sensor_2` is a number above 800. Bools never are. The score is then that number as a float, otherwise `0.0`. The rule fails (the event is dropped) exactly for an int above 800 too large for a float. |
| FunctionApp.DictComprehension | iot-anomaly-function/function_app.py:82 | `{k: d[k] for k in keys if k in d}` holds exactly the listed keys that d has, with d's values, at most one entry per listed key, each key once. |
| FunctionApp.RawDataSample | iot-anomaly-function/function_app.py:82 | `raw_data_sample` has at most five fields. Each is one of the reading's first five keys, with the reading's value. |
| FunctionApp.RawDataSampleIsPrefix | iot-anomaly-function/function_app.py:82 | `raw_data_sample` is the reading's first five fields (all of them when there are fewer), in order, with their values. |
| FunctionApp.ComprehensionOfOwnKeys | iot-anomaly-function/function_app.py:82 | The dict comprehension over a dict's first n keys rebuilds its first n entries. |
| FunctionApp.AppRecord | iot-anomaly-function/function_app.py:73-83 | The record has exactly the nine fields in order, with unique keys. It carries the synthesized id, the reading's `unit_number`, `time_in_cycles`, `event_timestamp`, `sensor_2` and `message_id`, the verdict, and the sample. |
| FunctionApp.RecordFor | iot-anomaly-function/function_app.py:50-84 | An event yields a record exactly when its payload is a JSON object whose `sensor_2` the threshold rule accepts. The record has the nine fields and the reading's id, and is anomalous exactly when `sensor_2` is a number above 800. |
| FunctionApp.Records | iot-anomaly-function/function_app.py:49-84 | At most one record per event, in order. Each has a string id and exactly the nine named fields, in order, each once. |
| FunctionApp.SkippedEventIsIsolated | iot-anomaly-function/function_app.py:88-89 | An event that yields no record (not JSON, not an object, or an unconvertible `sensor_2`) leaves the records of the events around it as they would be without it. |
| FunctionApp.CollectRecords | iot-anomaly-function/function_app.py:49-89 | The loop raises exactly when some event's body cannot be read: the error handler decodes it again. Otherwise it accumulates the records of the whole batch. |
| FunctionApp.App.ConsumeEventHubData | iot-anomaly-function/function_app.py:33-103 | If some body is unreadable, the invocation raises and nothing is written. Otherwise the records are built whether or not a container exists. They are upserted, up to the first failing write, only when the client exists and the container lookup succeeded. |

## Notes on the source's behaviour

The model follows the code as written. Four behaviours stand out.

- **One unreadable event can end a whole batch.** Both handlers wrap each
  event in its own `try`/`except` (event_consumer.py:127 and 212,
  iot-anomaly-function/function_app.py:50 and 88), so that one bad event
  does not stop the others. The handlers themselves can still raise:
  - In the stream consumer, when the first event's body cannot be read,
    the handler logs `event_body`, which nothing has bound yet
    (event_consumer.py:213). Nothing of the batch is written and no checkpoint
    is taken; what the transport does with the exception is not modelled.
    Conversely, a first event that is readable but not JSON binds
    `event_body` (event_consumer.py:127). It yields no record, but a later
    unreadable body then no longer raises (`EventConsumer.FrontEventDecidesRaise`).
  - In the Functions consumer, for any unreadable event, the handler
    decodes the body again (iot-anomaly-function/function_app.py:89), and
    the invocation raises.
- **No container.** The stream consumer returns before the loop when there
  is no container (event_consumer.py:110-112). It makes no inference calls
  and does not checkpoint.
- **Ids are not unique per reading.** The Functions consumer's comment asks
  for a unique `id` (iot-anomaly-function/function_app.py:72). The
  synthesized id is not injective (`Readings.IdIsNotInjective`), so two
  readings can share one stored document. It is stable, though:
  after a first delivery that wrote all its records, redelivering the batch
  replaces documents and adds none (`EventConsumer.RedeliveryAddsNoDocument`).
  When either delivery stopped part-way, the container still ends with no id
  outside those of one complete delivery
  (`EventConsumer.PartialRedeliveryAddsNoDocument`).
- **Sensor values are not checked.** The stream consumer never looks at
  sensor values. A reading with a malformed sensor field is recorded with
  whatever verdict the service gives, or with the fail-open verdict.

## Left out

- Telemetry is not modelled: the Datadog metric posts (event_consumer.py:183-210) and all logging.
- Client start-up and configuration are not modelled (`initialize_clients`, the module-level client in function_app.py, environment reads). They enter only as present/absent inputs.
- HTTP timeouts, error statuses (400 or above, which `raise_for_status()` rejects) and transport errors all collapse into `CallFailed`. A 3xx final response is decoded like any other, as one more possible `Responded` body.
- The container's partition key is not modelled: documents are keyed by id alone.
- Concurrent batches are not modelled. The stream consumer handles partitions as concurrent tasks that share one container, and its awaits (event_consumer.py:146, 219 and 228) let other partitions' upserts interleave. Concurrent Functions invocations share the container in the same way. `Cosmos.Container.UpsertAll`, `EventConsumer.Consumer.ProcessEventBatch` and `FunctionApp.App.ConsumeEventHubData` state the container's new contents for one batch with no concurrent writer.
- `update_checkpoint` raising is not modelled: the checkpoint call is taken to succeed.
- A batch whose first event is unreadable stands for `body_as_str()` raising on bytes that are not UTF-8. The transport SDK's decoding is not part of this model.
- Floats are exact decimals. Not modelled:
  - rounding to binary64 (a JSON number like `800.0000000000000001` compares above 800 here but not in Python)
  - NaN, infinities and `-0.0`
  - exponent notation in `str()` of very large or very small floats
  - rounding in `float()` of ints beyond 2^53
- `str()` of strings nested in lists or dicts quotes them without Python's escaping of quotes and control characters.
- EventConsumer.Requests: states only the count and order of the posted bodies. What each body is, is stated by `EventConsumer.InferenceRequest`, which the loop in `EventConsumer.CollectRecords` posts for each event.
- The inference service (model_api.py, score.py) and the stream producer (stream_data.py) are not part of this model.

=== FILE: cosmos.dfy ===
/**
 * The document container both consumers write to, through its
 * upsert-by-id primitive: upserting a document stores it under its `id`,
 * replacing any document already stored under that id.
 */
module Cosmos {
  import opened Wrappers
  import opened Json

  /** The `id` a document is stored under, when it has a string one. */
  function DocId(doc: Dict): Option<string>
  {
    match Get(doc, "id")
    case Some(Str(s)) => Some(s)
    case _ => None
  }

  /** Every document has a string id, which the upsert primitive demands. */
  predicate AllIdentified(docs: seq<Dict>)
  {
    forall j :: 0 <= j < |docs| ==> DocId(docs[j]).Some?
  }

  /** The ids of the documents. */
  function Ids(docs: seq<Dict>): set<string>
    requires AllIdentified(docs)
  {
    set j | 0 <= j < |docs| :: DocId(docs[j]).value
  }

  /** The first k documents carry ids, and only ids among those of all the documents. */
  lemma PrefixIds(docs: seq<Dict>, k: nat)
    requires AllIdentified(docs) && k <= |docs|
    ensures AllIdentified(docs[..k]) && Ids(docs[..k]) <= Ids(docs)
  {
    var p := docs[..k];
    assert forall j :: 0 <= j < k ==> p[j] == docs[j];
    forall id | id in Ids(p) ensures id in Ids(docs) {
      var j :| 0 <= j < k && DocId(p[j]).value == id;
      assert p[j] == docs[j];
    }
  }

  /** The container's contents after upserting the documents one after another. */
  function ApplyUpserts(m: map<string, Dict>, docs: seq<Dict>): map<string, Dict>
    requires AllIdentified(docs)
    decreases |docs|
  {
    if docs == [] then m
    else
      var n := |docs| - 1;
      ApplyUpserts(m, docs[..n])[DocId(docs[n]).value := docs[n]]
  }

  /** How many of n sequential upserts succeed when the one at index failAt (if any) raises. */
  function UpsertsBeforeFailure(n: nat, failAt: Option<nat>): nat
  {
    match failAt
    case Some(f) => if f < n then f else n
    case None => n
  }

  /** After the upserts the container holds the old ids and the upserted ones, and no other. */
  lemma {:induction false} UpsertedIds(m: map<string, Dict>, docs: seq<Dict>)
    requires AllIdentified(docs)
    ensures ApplyUpserts(m, docs).Keys == m.Keys + Ids(docs)
  {
    if docs != [] {
      var n := |docs| - 1;
      UpsertedIds(m, docs[..n]);
      assert Ids(docs) == Ids(docs[..n]) + {DocId(docs[n]).value} by {
        forall k | k in Ids(docs) ensures k in Ids(docs[..n]) + {DocId(docs[n]).value} {
          var j :| 0 <= j < |docs| && DocId(docs[j]).value == k;
          if j < n { assert docs[..n][j] == docs[j]; }
        }
        forall k | k in Ids(docs[..n]) ensures k in Ids(docs) {
          var j :| 0 <= j < n && DocId(docs[..n][j]).value == k;
          assert docs[..n][j] == docs[j];
        }
      }
    }
  }

  /** An id that is stored last by the j-th document holds exactly that document: later upserts win. */
  lemma {:induction false} LastUpsertWins(m: map<string, Dict>, docs: seq<Dict>, j: nat)
    requires AllIdentified(docs) && j < |docs|
    requires forall j' :: j < j' < |docs| ==> DocId(docs[j']) != DocId(docs[j])
    ensures DocId(docs[j]).value in ApplyUpserts(m, docs)
    ensures ApplyUpserts(m, docs)[DocId(docs[j]).value] == docs[j]
  {
    var n := |docs| - 1;
    if j < n {
      var prefix := docs[..n];
      assert forall j' :: j < j' < |prefix| ==> prefix[j'] == docs[j'];
      LastUpsertWins(m, prefix, j);
      assert prefix[j] == docs[j];
    }
  }

  /** A document stored under an id that no upserted document carries is left as it was. */
  lemma {:induction false} UntouchedIds(m: map<string, Dict>, docs: seq<Dict>, k: string)
    requires AllIdentified(docs)
    requires forall j :: 0 <= j < |docs| ==> DocId(docs[j]) != Some(k)
    ensures k in ApplyUpserts(m, docs) <==> k in m
    ensures k in m ==> ApplyUpserts(m, docs)[k] == m[k]
  {
    if docs != [] {
      var n := |docs| - 1;
      UntouchedIds(m, docs[..n], k);
    }
  }

  /** Upserting a sequence merges its own net effect into the container. */
  lemma {:induction false} UpsertsMerge(m: map<string, Dict>, docs: seq<Dict>)
    requires AllIdentified(docs)
    ensures ApplyUpserts(m, docs) == m + ApplyUpserts(map[], docs)
  {
    if docs != [] {
      var n := |docs| - 1;
      UpsertsMerge(m, docs[..n]);
    }
  }

  /** Redelivering a batch of upserts leaves the container as the first delivery left it. */
  lemma RedeliveryIsIdempotent(m: map<string, Dict>, docs: seq<Dict>)
    requires AllIdentified(docs)
    ensures ApplyUpserts(ApplyUpserts(m, docs), docs) == ApplyUpserts(m, docs)
  {
    var once := ApplyUpserts(m, docs);
    UpsertsMerge(m, docs);
    UpsertsMerge(once, docs);
    var net := ApplyUpserts(map[], docs);
    assert once + net == m + net + net;
    assert m + net + net == m + net;
  }

  /** A document container, reached through a container client. */
  class Container {
    /** The stored documents, by id. */
    var docs: map<string, Dict>

    constructor (docs: map<string, Dict>)
      ensures this.docs == docs
    {
      this.docs := docs;
    }

    /**
     * `for record in records: upsert_item(body=record)` inside one try block:
     * the upserts run in order and the first one that raises ends the loop;
     * the caller logs the error. Returns how many upserts succeeded.
     */
    method UpsertAll(records: seq<Dict>, failAt: Option<nat>) returns (written: nat)
      requires AllIdentified(records)
      modifies this
      ensures written == UpsertsBeforeFailure(|records|, failAt)
      ensures docs == ApplyUpserts(old(docs), records[..written])
    {
      written := 0;
      while written < |records|
        invariant written <= |records|
        invariant failAt.Some? ==> written <= failAt.value
        invariant docs == ApplyUpserts(old(docs), records[..written])
      {
        if failAt == Some(written) {
          return;
        }
        assert records[..written + 1][..written] == records[..written];
        docs := docs[DocId(records[written]).value := records[written]];
        written := written + 1;
      }
      assert records[..written] == records;
    }
  }
}

=== FILE: event_consumer.dfy ===
/**
 * The per-batch handler of the asynchronous stream consumer
 * (`process_event_batch`): decode each event, ask the inference service for
 * a classification with a fail-open fallback, assemble the record to
 * persist, upsert the accumulated records one by one, then checkpoint the
 * last event of the batch.
 *
 * The inference service, the document container and the transport are
 * inputs: one inference outcome per event, the index of the first upsert
 * that raises (if any), and whether the container and the HTTP session
 * exist.
 */
module EventConsumer {
  import opened Wrappers
  import opened Json
  import opened Readings
  import opened Cosmos

  /** The fields of a reading that are neither sent to the classifier nor persisted. */
  const ExcludedKeys: set<string> := {"raw_message_id", "raw_data_sample", "sensor_2_value"}

  /** The fields the consumer writes into every record. */
  const AddedKeys: set<string> := {"id", "is_anomaly", "anomaly_score", "unit_number"}

  /** The body posted to the inference service: a copy of the reading without the excluded fields. */
  function InferenceInput(reading: Dict): (input: Dict)
    ensures forall k :: Get(input, k) == if k in ExcludedKeys then None else Get(reading, k)
    ensures KeySet(input) == KeySet(reading) - ExcludedKeys
    ensures UniqueKeys(reading) ==> UniqueKeys(input)
  {
    Delete(Delete(Delete(reading, "raw_message_id"), "raw_data_sample"), "sensor_2_value")
  }

  /**
   * The body posted for an event, if one is posted. An object is posted
   * without its excluded fields. A JSON array also survives `.copy()` and
   * the `in` tests and is posted as it is, unless it holds one of the three
   * key strings, in which case `del` on the list raises before the call.
   * Any other payload has no `.copy()` and nothing is posted.
   */
  function InferenceRequest(ev: Event): (r: Option<Value>)
    ensures ReadingOf(ev).Some? ==>
              r.Some? && r.value.Obj? &&
              forall k :: Get(r.value.entries, k) == if k in ExcludedKeys then None else Get(ReadingOf(ev).value, k)
    ensures r.Some? && !r.value.Obj? ==> ev.body == Text(r) && r.value.Arr? && !HoldsExcludedKey(r.value.items)
    ensures r.None? ==>
              ReadingOf(ev).None? &&
              (ev.body.Text? && ev.body.json.Some? && ev.body.json.value.Arr? ==> HoldsExcludedKey(ev.body.json.value.items))
  {
    match ev.body
    case Text(Some(Obj(reading))) => Some(Obj(InferenceInput(reading)))
    case Text(Some(Arr(items))) => if HoldsExcludedKey(items) then None else Some(Arr(items))
    case _ => None
  }

  /** Whether a list holds one of the excluded key strings, so that `del` on it raises. */
  predicate HoldsExcludedKey(items: seq<Value>)
  {
    Str("raw_message_id") in items || Str("raw_data_sample") in items || Str("sensor_2_value") in items
  }

  /** What the inference call gave: it raised (transport error, timeout, error status of 400 or above, undecodable body), or a decoded JSON body. */
  datatype InferenceOutcome = CallFailed | Responded(body: Value)

  /** Whether `f"{v:.4f}"` renders v without raising: bools, floats, and ints that convert to a float. */
  predicate FormatsFixed(v: Value)
  {
    match v
    case Bool(_) => true
    case Float(_, _) => true
    case Int(i) => ConvertsToFloat(i)
    case _ => false
  }

  /**
   * The verdict the consumer records: the service's `is_anomaly` and
   * `anomaly_score` (defaulting to False and 0.0), or the fail-open verdict
   * when the call raised, when the body has no `.get` (not an object), or when
   * the score cannot be logged with `:.4f`.
   */
  function Classify(outcome: InferenceOutcome): (v: Verdict)
    ensures FormatsFixed(v.score)
    ensures outcome.CallFailed? ==> v == FailOpen
    ensures outcome.Responded? && !outcome.body.Obj? ==> v == FailOpen
    ensures v != FailOpen ==>
              outcome.Responded? && outcome.body.Obj? &&
              v.isAnomaly == GetOr(outcome.body.entries, "is_anomaly", Bool(false)) &&
              v.score == GetOr(outcome.body.entries, "anomaly_score", Float(0, 0))
    ensures outcome.Responded? && outcome.body.Obj? &&
            FormatsFixed(GetOr(outcome.body.entries, "anomaly_score", Float(0, 0))) ==>
              v.isAnomaly == GetOr(outcome.body.entries, "is_anomaly", Bool(false)) &&
              v.score == GetOr(outcome.body.entries, "anomaly_score", Float(0, 0))
  {
    match outcome
    case CallFailed => FailOpen
    case Responded(Obj(body)) =>
      var isAnomaly := GetOr(body, "is_anomaly", Bool(false));
      var score := GetOr(body, "anomaly_score", Float(0, 0));
      if FormatsFixed(score) then Verdict(isAnomaly, score) else FailOpen
    case Responded(_) => FailOpen
  }

  /**
   * The record persisted for a reading: a copy of the reading with `id`,
   * `is_anomaly`, `anomaly_score` and `unit_number` assigned, then the
   * excluded fields deleted.
   */
  function ConsumerRecord(reading: Dict, verdict: Verdict): (r: Dict)
    ensures DocId(r) == Some(SynthesizedId(reading))
    ensures Get(r, "is_anomaly") == Some(verdict.isAnomaly)
    ensures Get(r, "anomaly_score") == Some(verdict.score)
    ensures Get(r, "unit_number") == Some(Field(reading, "unit_number"))
    ensures forall k :: k in ExcludedKeys ==> Get(r, k) == None
    ensures forall k :: k !in AddedKeys && k !in ExcludedKeys ==> Get(r, k) == Get(reading, k)
    ensures UniqueKeys(reading) ==> UniqueKeys(r)
  {
    var withId := Set(reading, "id", Str(SynthesizedId(reading)));
    var withFlag := Set(withId, "is_anomaly", verdict.isAnomaly);
    var withScore := Set(withFlag, "anomaly_score", verdict.score);
    var withUnit := Set(withScore, "unit_number", Field(reading, "unit_number"));
    Delete(Delete(Delete(withUnit, "raw_message_id"), "raw_data_sample"), "sensor_2_value")
  }

  /** The record has the reading's keys and the four added ones, without the excluded ones. */
  lemma ConsumerRecordKeys(reading: Dict, verdict: Verdict)
    ensures KeySet(ConsumerRecord(reading, verdict)) == KeySet(reading) + AddedKeys - ExcludedKeys
  {
    var ks, expected := KeySet(ConsumerRecord(reading, verdict)), KeySet(reading) + AddedKeys - ExcludedKeys;
    forall k ensures k in ks <==> k in expected {
      ConsumerRecordKey(reading, verdict, k);
    }
    assert ks == expected;
  }

  /** One key of the record: present exactly when added, or kept from the reading and not excluded. */
  lemma ConsumerRecordKey(reading: Dict, verdict: Verdict, k: string)
    ensures Get(ConsumerRecord(reading, verdict), k).Some? <==>
            (k in AddedKeys || Get(reading, k).Some?) && k !in ExcludedKeys
  {
    var r := ConsumerRecord(reading, verdict);
    if k in ExcludedKeys {
      assert Get(r, k) == None;
    } else if k in AddedKeys {
      assert Get(r, k).Some?;
    } else {
      assert Get(r, k) == Get(reading, k);
    }
  }

  /** The record one event adds to the batch, if any: events whose payload is not an object are skipped. */
  function RecordFor(ev: Event, outcome: InferenceOutcome): (r: Option<Dict>)
    ensures r.Some? <==> ReadingOf(ev).Some?
    ensures r.Some? ==>
              DocId(r.value) == Some(SynthesizedId(ReadingOf(ev).value)) &&
              Get(r.value, "is_anomaly") == Some(Classify(outcome).isAnomaly) &&
              Get(r.value, "anomaly_score") == Some(Classify(outcome).score)
  {
    match ReadingOf(ev)
    case Some(reading) => Some(ConsumerRecord(reading, Classify(outcome)))
    case None => None
  }

  /** The bodies posted to the inference service for a batch, in delivery order. */
  function Requests(events: seq<Event>): (rs: seq<Value>)
    ensures |rs| <= |events|
  {
    FilterMap(InferenceRequest, events)
  }

  /** The records a batch accumulates, in delivery order, at most one per event. */
  function Records(events: seq<Event>, outcomes: seq<InferenceOutcome>): (rs: seq<Dict>)
    requires |outcomes| == |events|
    ensures |rs| <= |events|
    ensures AllIdentified(rs)
  {
    if events == [] then []
    else AsSeq(RecordFor(events[0], outcomes[0])) + Records(events[1..], outcomes[1..])
  }

  /** The records of two consecutive parts of a batch are those of each part, in order. */
  lemma {:induction false} RecordsAppend(a: seq<Event>, oa: seq<InferenceOutcome>, b: seq<Event>, ob: seq<InferenceOutcome>)
    requires |oa| == |a| && |ob| == |b|
    ensures Records(a + b, oa + ob) == Records(a, oa) + Records(b, ob)
  {
    if a != [] {
      assert (a + b)[1..] == a[1..] + b;
      assert (oa + ob)[1..] == oa[1..] + ob;
      RecordsAppend(a[1..], oa[1..], b, ob);
    } else {
      assert a + b == b && oa + ob == ob;
    }
  }

  /** Extending a batch prefix by one event extends its records by that event's record. */
  lemma RecordsSnoc(events: seq<Event>, outcomes: seq<InferenceOutcome>, i: nat)
    requires |outcomes| == |events| && i < |events|
    ensures Records(events[..i + 1], outcomes[..i + 1]) ==
            Records(events[..i], outcomes[..i]) + AsSeq(RecordFor(events[i], outcomes[i]))
  {
    var e, o := [events[i]], [outcomes[i]];
    assert events[..i + 1] == events[..i] + e;
    assert outcomes[..i + 1] == outcomes[..i] + o;
    assert Records(e, o) == AsSeq(RecordFor(events[i], outcomes[i])) by {
      assert e[1..] == [] && o[1..] == [];
    }
    RecordsAppend(events[..i], outcomes[..i], e, o);
  }

  /**
   * An event whose payload is not a JSON object adds no record and leaves the
   * records of the events around it as they are without it. Behind another
   * event it does not change whether the batch raises either; at the front
   * of a batch it can (see FrontEventDecidesRaise).
   */
  lemma SkippedEventIsIsolated(a: seq<Event>, oa: seq<InferenceOutcome>, ev: Event, o: InferenceOutcome,
                               b: seq<Event>, ob: seq<InferenceOutcome>)
    requires |oa| == |a| && |ob| == |b|
    requires ReadingOf(ev).None?
    ensures Records(a + [ev] + b, oa + [o] + ob) == Records(a, oa) + Records(b, ob)
    ensures a != [] ==> RaisesOnFirstEvent(a + [ev] + b) == RaisesOnFirstEvent(a + b)
  {
    if a != [] {
      assert (a + [ev] + b)[0] == a[0] && (a + b)[0] == a[0];
    }
    var left, lo := a + [ev], oa + [o];
    assert Records([ev], [o]) == [] by {
      assert [ev][1..] == [] && [o][1..] == [];
    }
    RecordsAppend(a, oa, [ev], [o]);
    assert Records(left, lo) == Records(a, oa);
    RecordsAppend(left, lo, b, ob);
  }

  /** When every payload is an object, every event gives one record, in order, built from its own outcome. */
  lemma {:induction false} EveryReadingIsRecorded(events: seq<Event>, outcomes: seq<InferenceOutcome>)
    requires |outcomes| == |events|
    requires forall j :: 0 <= j < |events| ==> ReadingOf(events[j]).Some?
    ensures |Records(events, outcomes)| == |events|
    ensures forall j :: 0 <= j < |events| ==>
              Records(events, outcomes)[j] == ConsumerRecord(ReadingOf(events[j]).value, Classify(outcomes[j]))
  {
    if events != [] {
      EveryReadingIsRecorded(events[1..], outcomes[1..]);
      forall j | 0 <= j < |events|
        ensures Records(events, outcomes)[j] == ConsumerRecord(ReadingOf(events[j]).value, Classify(outcomes[j]))
      {
        if j > 0 {
          assert events[1..][j - 1] == events[j];
          assert outcomes[1..][j - 1] == outcomes[j];
        }
      }
    }
  }

  /**
   * With the inference service unreachable for a whole batch of readings,
   * every reading is still recorded, each with the fail-open verdict.
   */
  lemma OutageRecordsEveryReadingWithSentinel(events: seq<Event>, outcomes: seq<InferenceOutcome>)
    requires |outcomes| == |events|
    requires forall j :: 0 <= j < |events| ==> ReadingOf(events[j]).Some? && outcomes[j] == CallFailed
    ensures |Records(events, outcomes)| == |events|
    ensures forall r :: r in Records(events, outcomes) ==>
              Get(r, "is_anomaly") == Some(Bool(false)) && Get(r, "anomaly_score") == Some(Float(-999, 0))
  {
    EveryReadingIsRecorded(events, outcomes);
  }

  /**
   * The ids of a batch's records do not depend on the inference outcomes:
   * the same events classified differently give records with the same ids, in the same places.
   */
  lemma {:induction false} RecordIdsIgnoreOutcomes(events: seq<Event>, o1: seq<InferenceOutcome>, o2: seq<InferenceOutcome>)
    requires |o1| == |events| && |o2| == |events|
    ensures |Records(events, o1)| == |Records(events, o2)|
    ensures forall j :: 0 <= j < |Records(events, o1)| ==> DocId(Records(events, o1)[j]) == DocId(Records(events, o2)[j])
  {
    if events != [] {
      RecordIdsIgnoreOutcomes(events[1..], o1[1..], o2[1..]);
      var h1, h2 := AsSeq(RecordFor(events[0], o1[0])), AsSeq(RecordFor(events[0], o2[0]));
      var t1, t2 := Records(events[1..], o1[1..]), Records(events[1..], o2[1..]);
      assert |h1| == |h2|;
      forall j | 0 <= j < |h1 + t1| ensures DocId((h1 + t1)[j]) == DocId((h2 + t2)[j]) {
        if j >= |h1| {
          assert (h1 + t1)[j] == t1[j - |h1|] && (h2 + t2)[j] == t2[j - |h2|];
        }
      }
    }
  }

  /** The same events with any two outcome sequences give records with the same set of ids. */
  lemma RecordIdSetsAgree(events: seq<Event>, first: seq<InferenceOutcome>, second: seq<InferenceOutcome>)
    requires |first| == |events| && |second| == |events|
    ensures Ids(Records(events, first)) == Ids(Records(events, second))
  {
    var r1, r2 := Records(events, first), Records(events, second);
    RecordIdsIgnoreOutcomes(events, first, second);
    forall k | k in Ids(r2) ensures k in Ids(r1) {
      var j :| 0 <= j < |r2| && DocId(r2[j]).value == k;
      assert DocId(r1[j]).value == k;
    }
    forall k | k in Ids(r1) ensures k in Ids(r2) {
      var j :| 0 <= j < |r1| && DocId(r1[j]).value == k;
      assert DocId(r2[j]).value == k;
    }
  }

  /**
   * After a first delivery that wrote all its records, redelivering the batch,
   * even with its readings classified differently, adds no document: every
   * record it writes replaces one the first delivery wrote.
   */
  lemma RedeliveryAddsNoDocument(m: map<string, Dict>, events: seq<Event>,
                                 first: seq<InferenceOutcome>, second: seq<InferenceOutcome>)
    requires |first| == |events| && |second| == |events|
    ensures ApplyUpserts(ApplyUpserts(m, Records(events, first)), Records(events, second)).Keys ==
            ApplyUpserts(m, Records(events, first)).Keys
  {
    var r1, r2 := Records(events, first), Records(events, second);
    RecordIdSetsAgree(events, first, second);
    UpsertedIds(m, r1);
    UpsertedIds(ApplyUpserts(m, r1), r2);
  }

  /**
   * A redelivery after a first delivery that stopped part-way, and that itself
   * stops anywhere, leaves the container with no id outside those one complete
   * delivery gives: records are overwritten, never duplicated.
   */
  lemma PartialRedeliveryAddsNoDocument(m: map<string, Dict>, events: seq<Event>,
                                        first: seq<InferenceOutcome>, second: seq<InferenceOutcome>,
                                        k1: nat, k2: nat)
    requires |first| == |events| && |second| == |events|
    ensures var r1, r2 := Records(events, first), Records(events, second);
            var n1, n2 := if k1 <= |r1| then k1 else |r1|, if k2 <= |r2| then k2 else |r2|;
            ApplyUpserts(ApplyUpserts(m, r1[..n1]), r2[..n2]).Keys <= ApplyUpserts(m, r1).Keys
  {
    var r1, r2 := Records(events, first), Records(events, second);
    var n1, n2 := if k1 <= |r1| then k1 else |r1|, if k2 <= |r2| then k2 else |r2|;
    PrefixIds(r1, n1);
    PrefixIds(r2, n2);
    RecordIdSetsAgree(events, first, second);
    UpsertedIds(m, r1[..n1]);
    UpsertedIds(ApplyUpserts(m, r1[..n1]), r2[..n2]);
    UpsertedIds(m, r1);
  }

  /**
   * The first event decides whether the batch raises, whether or not it yields
   * a record: an unreadable first body raises, while any readable first body,
   * even one that is not JSON, binds `event_body` and so keeps a later
   * unreadable body from raising.
   */
  lemma FrontEventDecidesRaise(ev: Event, b: seq<Event>)
    requires ev.body.Text?
    ensures RaisesOnFirstEvent([Event(1, Unreadable)] + b)
    ensures !RaisesOnFirstEvent([ev, Event(1, Unreadable)] + b)
  {
    assert ([Event(1, Unreadable)] + b)[0] == Event(1, Unreadable);
    assert ([ev, Event(1, Unreadable)] + b)[0] == ev;
  }

  /**
   * The `for event in events` loop: each event's failure is caught and the
   * loop goes on, except when the handler itself raises, which it does for
   * an unreadable body before any body was read. Returns whether an
   * exception escaped, the bodies posted and the records accumulated.
   */
  method CollectRecords(events: seq<Event>, outcomes: seq<InferenceOutcome>)
    returns (raised: bool, requests: seq<Value>, records: seq<Dict>)
    requires |outcomes| == |events|
    ensures raised == RaisesOnFirstEvent(events)
    ensures raised ==> requests == [] && records == []
    ensures !raised ==> requests == Requests(events) && records == Records(events, outcomes)
  {
    requests, records := [], [];
    // Whether `event_body` has been bound by an earlier event; the except handler reads it.
    var bodyRead := false;
    var i := 0;
    while i < |events|
      invariant 0 <= i <= |events|
      invariant bodyRead == (i > 0)
      invariant i > 0 ==> !RaisesOnFirstEvent(events)
      invariant requests == Requests(events[..i])
      invariant records == Records(events[..i], outcomes[..i])
    {
      var ev := events[i];
      if ev.body.Unreadable? {
        if !bodyRead {
          // The except handler logs `event_body[:200]` before anything bound it: UnboundLocalError escapes.
          return true, [], [];
        }
      } else {
        bodyRead := true;
        requests := requests + AsSeq(InferenceRequest(ev));
        records := records + AsSeq(RecordFor(ev, outcomes[i]));
      }
      FilterMapSnoc(InferenceRequest, events, i);
      RecordsSnoc(events, outcomes, i);
      i := i + 1;
    }
    assert events[..i] == events && outcomes[..i] == outcomes;
    raised := false;
  }

  /** Whether the inference call can be made: the endpoint URL is set and not empty, and the HTTP session exists. */
  predicate InferenceAvailable(mlEndpoint: Option<string>, sessionOpen: bool)
  {
    mlEndpoint.Some? && mlEndpoint.value != "" && sessionOpen
  }

  /** Whether the batch raises out of the handler: only when its first event's body cannot be read. */
  predicate RaisesOnFirstEvent(events: seq<Event>)
  {
    |events| > 0 && events[0].body.Unreadable?
  }

  /** How a batch ended. */
  datatype BatchStatus =
    | NoContainer             // returned before the loop: no container
    | NoInferenceEndpoint     // returned before the loop: no endpoint URL or no HTTP session
    | Raised                  // an exception escaped the handler
    | Processed(upserted: nat)

  /** The consumer's state: the shared container and HTTP session, and the partition's checkpoint. */
  class Consumer {
    /** The container client; null when it could not be obtained. */
    const container: Container?
    /** Whether the shared HTTP session exists. */
    const sessionOpen: bool
    /** The sequence number of the last checkpointed event of the partition. */
    var checkpoint: Option<nat>

    constructor (container: Container?, sessionOpen: bool)
      ensures this.container == container && this.sessionOpen == sessionOpen
      ensures checkpoint == None
    {
      this.container := container;
      this.sessionOpen := sessionOpen;
      checkpoint := None;
    }

    /**
     * `process_event_batch`. `outcomes[j]` is what the inference call for
     * `events[j]` gives, if it is made; `failAt` is the index of the first
     * upsert that raises, if any; `mlEndpoint` is the endpoint URL read
     * from the environment.
     */
    method ProcessEventBatch(events: seq<Event>, outcomes: seq<InferenceOutcome>,
                             mlEndpoint: Option<string>, failAt: Option<nat>)
      returns (status: BatchStatus, requests: seq<Value>, records: seq<Dict>)
      requires |outcomes| == |events|
      modifies this, container
      ensures container == null ==>
                status == NoContainer && requests == [] && records == [] && checkpoint == old(checkpoint)
      ensures container != null && !InferenceAvailable(mlEndpoint, sessionOpen) ==>
                status == NoInferenceEndpoint && requests == [] && records == [] &&
                checkpoint == old(checkpoint) && container.docs == old(container.docs)
      ensures container != null && InferenceAvailable(mlEndpoint, sessionOpen) && RaisesOnFirstEvent(events) ==>
                status == Raised && requests == [] && records == [] &&
                checkpoint == old(checkpoint) && container.docs == old(container.docs)
      ensures container != null && InferenceAvailable(mlEndpoint, sessionOpen) && !RaisesOnFirstEvent(events) ==>
                requests == Requests(events) && records == Records(events, outcomes) &&
                status == Processed(UpsertsBeforeFailure(|records|, failAt)) &&
                container.docs == ApplyUpserts(old(container.docs), records[..UpsertsBeforeFailure(|records|, failAt)]) &&
                checkpoint == (if events == [] then old(checkpoint) else Some(events[|events| - 1].sequenceNumber))
    {
      if container == null {
        return NoContainer, [], [];
      }
      if !InferenceAvailable(mlEndpoint, sessionOpen) {
        return NoInferenceEndpoint, [], [];
      }
      var raised;
      raised, requests, records := CollectRecords(events, outcomes);
      if raised {
        return Raised, [], [];
      }
      var upserted := 0;
      if |records| > 0 {
        upserted := container.UpsertAll(records, failAt);
      }
      if |events| > 0 {
        checkpoint := Some(events[|events| - 1].sequenceNumber);
      }
      status := Processed(upserted);
    }
  }
}

=== FILE: function_app.dfy ===
/**
 * The synchronous Functions entry point (`ConsumeEventHubData`): resolve
 * the container once per batch, classify each reading with a fixed
 * threshold on `sensor_2`, build a nine-field record with a sample of the
 * raw reading, and upsert the records one by one.
 */
module FunctionApp {
  import opened Wrappers
  import opened Json
  import opened PyText
  import opened Readings
  import opened Cosmos

  /** Readings whose `sensor_2` exceeds this are anomalous. */
  const Threshold: int := 800

  /** How many fields of the raw reading the record samples. */
  const SampleSize: nat := 5

  /** The number Python compares for an int or float (a bool is an int: True == 1); None for other values. */
  function NumericValue(v: Value): Option<real>
  {
    match v
    case Bool(b) => Some(if b then 1.0 else 0.0)
    case Int(i) => Some(i as real)
    case Float(digits, scale) => Some(digits as real / Pow10(scale) as real)
    case _ => None
  }

  /** The verdict of a reading under the threshold: not anomalous, score 0.0. */
  const Normal := Verdict(Bool(false), Float(0, 0))

  /** A decimal exceeds the threshold exactly when its digits exceed the threshold scaled alike. */
  lemma AboveThresholdScaled(digits: int, p: nat)
    requires p > 0
    ensures digits as real / p as real > Threshold as real <==> digits > Threshold * p
  {
    var x := digits as real / p as real;
    assert x * p as real == digits as real;
    if x > Threshold as real {
      assert x * p as real > Threshold as real * p as real;
    } else {
      assert x * p as real <= Threshold as real * p as real;
    }
  }

  /**
   * `is_anomaly = True; anomaly_score = float(sensor_2)` when sensor_2 is an
   * int or float above the threshold, else `(False, 0.0)`. None when
   * `float()` raises: an int too large for a double.
   */
  function ThresholdRule(sensor2: Value): (r: Option<Verdict>)
    ensures r.None? <==> sensor2.Int? && sensor2.i > Threshold && !ConvertsToFloat(sensor2.i)
    ensures r.Some? ==>
              (r.value.isAnomaly == Bool(true) <==>
                 NumericValue(sensor2).Some? && NumericValue(sensor2).value > Threshold as real)
    ensures r.Some? && r.value.isAnomaly == Bool(true) ==>
              r.value.score.Float? && NumericValue(r.value.score) == NumericValue(sensor2)
    ensures r.Some? && r.value.isAnomaly != Bool(true) ==> r.value == Normal
  {
    match sensor2
    case Int(i) =>
      if i <= Threshold then Some(Normal)
      else if ConvertsToFloat(i) then Some(Verdict(Bool(true), Float(i, 0)))
      else None
    case Float(digits, scale) =>
      AboveThresholdScaled(digits, Pow10(scale));
      if digits > Threshold * Pow10(scale) then Some(Verdict(Bool(true), sensor2)) else Some(Normal)
    case _ =>
      // None, strings and containers are not numbers; a bool is an int but never exceeds the threshold.
      Some(Normal)
  }

  /** `list(d.keys())`. */
  function KeysOf(d: Dict): (ks: seq<string>)
    ensures |ks| == |d|
  {
    seq(|d|, j requires 0 <= j < |d| => d[j].0)
  }

  /** `{k: source[k] for k in keys if k in source}`: inserted in the order of keys. */
  function DictComprehension(source: Dict, keys: seq<string>): (r: Dict)
    ensures |r| <= |keys|
    ensures UniqueKeys(r)
    ensures forall k :: Get(r, k) == if k in keys then Get(source, k) else None
    decreases |keys|
  {
    if keys == [] then []
    else
      var n := |keys| - 1;
      var acc := DictComprehension(source, keys[..n]);
      match Get(source, keys[n])
      case Some(v) => Set(acc, keys[n], v)
      case None => acc
  }

  /** `list(sensor_data.keys())[:5]`. */
  function SampledKeys(sensorData: Dict): (ks: seq<string>)
    ensures |ks| == if |sensorData| < SampleSize then |sensorData| else SampleSize
    ensures forall i :: 0 <= i < |ks| ==> ks[i] == sensorData[i].0
  {
    KeysOf(sensorData)[..if |sensorData| < SampleSize then |sensorData| else SampleSize]
  }

  /**
   * `raw_data_sample`: the comprehension over the first five keys of the
   * reading. It has at most five fields, each with the reading's value, and
   * no field outside the first five keys.
   */
  function RawDataSample(sensorData: Dict): (r: Dict)
    ensures |r| <= SampleSize
    ensures UniqueKeys(r)
    ensures forall k :: Get(r, k) == if k in SampledKeys(sensorData) then Get(sensorData, k) else None
  {
    DictComprehension(sensorData, SampledKeys(sensorData))
  }

  /** Looking up the key of any entry finds some entry. */
  lemma {:induction false} EveryKeyIsFound(d: Dict, j: nat)
    requires j < |d|
    ensures Get(d, d[j].0).Some?
  {
    if j > 0 && d[0].0 != d[j].0 {
      assert d[1..][j - 1] == d[j];
      EveryKeyIsFound(d[1..], j - 1);
    }
  }

  /** With unique keys, the key of entry n does not occur before it. */
  lemma {:induction false} KeyAbsentFromPrefix(d: Dict, n: nat)
    requires UniqueKeys(d) && n < |d|
    ensures Get(d[..n], d[n].0).None?
  {
    if n > 0 {
      assert d[1..][n - 1] == d[n];
      EveryKeyIsFound(d[1..], n - 1);
      assert d[..n][1..] == d[1..][..n - 1];
      KeyAbsentFromPrefix(d[1..], n - 1);
    }
  }

  /** The comprehension over the first n keys of a dict rebuilds its first n entries, in order. */
  lemma {:induction false} ComprehensionOfOwnKeys(d: Dict, n: nat)
    requires UniqueKeys(d) && n <= |d|
    ensures DictComprehension(d, KeysOf(d)[..n]) == d[..n]
  {
    if n > 0 {
      var keys := KeysOf(d)[..n];
      assert keys[..n - 1] == KeysOf(d)[..n - 1];
      ComprehensionOfOwnKeys(d, n - 1);
      GetAtIndex(d, n - 1);
      KeyAbsentFromPrefix(d, n - 1);
      assert d[..n] == d[..n - 1] + [d[n - 1]];
    }
  }

  /** `raw_data_sample` holds the first min(5, size) fields of the reading, in order, values unchanged. */
  lemma RawDataSampleIsPrefix(sensorData: Dict)
    requires UniqueKeys(sensorData)
    ensures |sensorData| <= SampleSize ==> RawDataSample(sensorData) == sensorData
    ensures |sensorData| > SampleSize ==> RawDataSample(sensorData) == sensorData[..SampleSize]
  {
    var n := if |sensorData| < SampleSize then |sensorData| else SampleSize;
    ComprehensionOfOwnKeys(sensorData, n);
    assert sensorData[..|sensorData|] == sensorData;
  }

  /** The nine fields of every record, in order. */
  const RecordKeys: seq<string> := ["id", "unit_number", "time_in_cycles", "event_timestamp", "sensor_2_value",
                                    "is_anomaly", "anomaly_score", "raw_message_id", "raw_data_sample"]

  /** The dict literal with the nine record keys, in order, bound to the given values. */
  function RecordLiteral(values: seq<Value>): (r: Dict)
    requires |values| == |RecordKeys|
    ensures |r| == |RecordKeys| && forall j :: 0 <= j < |r| ==> r[j].0 == RecordKeys[j]
    ensures UniqueKeys(r)
    ensures forall j :: 0 <= j < |r| ==> Get(r, RecordKeys[j]) == Some(values[j])
  {
    var r := seq(|RecordKeys|, j requires 0 <= j < |RecordKeys| => (RecordKeys[j], values[j]));
    DistinctKeysAreUnique(r);
    forall j | 0 <= j < |r| ensures Get(r, RecordKeys[j]) == Some(values[j]) {
      GetAtIndex(r, j);
    }
    r
  }

  /** Whether d has exactly the nine record keys, in order, each once. */
  predicate HasRecordKeys(d: Dict)
  {
    |d| == |RecordKeys| && UniqueKeys(d) && forall i :: 0 <= i < |RecordKeys| ==> d[i].0 == RecordKeys[i]
  }

  /** The record built for a reading and its verdict. */
  function AppRecord(sensorData: Dict, verdict: Verdict): (r: Dict)
    ensures |r| == |RecordKeys| && forall j :: 0 <= j < |r| ==> r[j].0 == RecordKeys[j]
    ensures UniqueKeys(r)
    ensures DocId(r) == Some(SynthesizedId(sensorData))
    ensures Get(r, "unit_number") == Some(Field(sensorData, "unit_number"))
    ensures Get(r, "time_in_cycles") == Some(Field(sensorData, "time_in_cycles"))
    ensures Get(r, "event_timestamp") == Some(Field(sensorData, "event_timestamp"))
    ensures Get(r, "sensor_2_value") == Some(Field(sensorData, "sensor_2"))
    ensures Get(r, "is_anomaly") == Some(verdict.isAnomaly) && Get(r, "anomaly_score") == Some(verdict.score)
    ensures Get(r, "raw_message_id") == Some(Field(sensorData, "message_id"))
    ensures Get(r, "raw_data_sample") == Some(Obj(RawDataSample(sensorData)))
  {
    var values := [ Str(SynthesizedId(sensorData)),
                    Field(sensorData, "unit_number"),
                    Field(sensorData, "time_in_cycles"),
                    Field(sensorData, "event_timestamp"),
                    Field(sensorData, "sensor_2"),
                    verdict.isAnomaly,
                    verdict.score,
                    Field(sensorData, "message_id"),
                    Obj(RawDataSample(sensorData)) ];
    var r := RecordLiteral(values);
    assert Get(r, RecordKeys[0]) == Some(values[0]);
    assert Get(r, RecordKeys[1]) == Some(values[1]);
    assert Get(r, RecordKeys[2]) == Some(values[2]);
    assert Get(r, RecordKeys[3]) == Some(values[3]);
    assert Get(r, RecordKeys[4]) == Some(values[4]);
    assert Get(r, RecordKeys[5]) == Some(values[5]);
    assert Get(r, RecordKeys[6]) == Some(values[6]);
    assert Get(r, RecordKeys[7]) == Some(values[7]);
    assert Get(r, RecordKeys[8]) == Some(values[8]);
    r
  }

  /**
   * The record a readable event adds, if any: none when the payload is not
   * an object (`.get` raises) or when `float()` of the sensor raises.
   */
  function RecordFor(ev: Event): (r: Option<Dict>)
    ensures r.Some? <==> ReadingOf(ev).Some? && ThresholdRule(Field(ReadingOf(ev).value, "sensor_2")).Some?
    ensures r.Some? ==>
              HasRecordKeys(r.value) &&
              DocId(r.value) == Some(SynthesizedId(ReadingOf(ev).value)) &&
              (Get(r.value, "is_anomaly") == Some(Bool(true)) <==>
                 NumericValue(Field(ReadingOf(ev).value, "sensor_2")).Some? &&
                 NumericValue(Field(ReadingOf(ev).value, "sensor_2")).value > Threshold as real)
  {
    match ReadingOf(ev)
    case Some(sensorData) =>
      (match ThresholdRule(Field(sensorData, "sensor_2"))
       case Some(verdict) => Some(AppRecord(sensorData, verdict))
       case None => None)
    case None => None
  }

  /** The records a batch accumulates, in delivery order, at most one per event, each with the nine fields. */
  function Records(events: seq<Event>): (rs: seq<Dict>)
    ensures |rs| <= |events|
    ensures AllIdentified(rs)
    ensures forall j :: 0 <= j < |rs| ==> HasRecordKeys(rs[j])
  {
    var rs := FilterMap(RecordFor, events);
    FilterMapResults(RecordFor, events);
    rs
  }

  /** An event that yields no record changes nothing for the events around it. */
  lemma SkippedEventIsIsolated(a: seq<Event>, ev: Event, b: seq<Event>)
    requires RecordFor(ev).None?
    ensures Records(a + [ev] + b) == Records(a) + Records(b)
  {
    FilterMapSkips(RecordFor, a, ev, b);
  }

  /** Whether some event's body cannot be read as text: the except handler decodes it again and raises. */
  predicate AnyUnreadable(events: seq<Event>)
  {
    exists j :: 0 <= j < |events| && events[j].body.Unreadable?
  }

  /**
   * The `for event in events` loop. Returns whether an exception escaped
   * (an unreadable body) and the records accumulated.
   */
  method CollectRecords(events: seq<Event>) returns (raised: bool, records: seq<Dict>)
    ensures raised == AnyUnreadable(events)
    ensures !raised ==> records == Records(events)
  {
    records := [];
    var i := 0;
    while i < |events|
      invariant 0 <= i <= |events|
      invariant forall j :: 0 <= j < i ==> !events[j].body.Unreadable?
      invariant records == Records(events[..i])
    {
      var ev := events[i];
      if ev.body.Unreadable? {
        // `.decode('utf-8')` raises; the except handler decodes the body again and raises out of the function.
        return true, records;
      }
      assert forall j :: 0 <= j < i + 1 ==> !events[j].body.Unreadable?;
      records := records + AsSeq(RecordFor(ev));
      FilterMapSnoc(RecordFor, events, i);
      i := i + 1;
    }
    assert events[..i] == events;
    raised := false;
  }

  /** How an invocation ended. */
  datatype InvocationStatus =
    | Raised                  // an exception escaped the function
    | NoContainer             // records built, writing skipped
    | Processed(upserted: nat)

  /** The Functions app: the Cosmos client created at import time, null when it could not be created. */
  class App {
    const cosmosClient: Container?

    constructor (cosmosClient: Container?)
      ensures this.cosmosClient == cosmosClient
    {
      this.cosmosClient := cosmosClient;
    }

    /**
     * `ConsumeEventHubData`. `lookupFails` says whether getting the
     * database and container clients raises; `failAt` is the index of the
     * first upsert that raises, if any.
     */
    method ConsumeEventHubData(events: seq<Event>, lookupFails: bool, failAt: Option<nat>)
      returns (status: InvocationStatus, records: seq<Dict>)
      modifies cosmosClient
      ensures cosmosClient != null && (AnyUnreadable(events) || lookupFails) ==>
                cosmosClient.docs == old(cosmosClient.docs)
      ensures AnyUnreadable(events) ==> status == Raised
      ensures !AnyUnreadable(events) ==> records == Records(events)
      ensures !AnyUnreadable(events) && (cosmosClient == null || lookupFails) ==> status == NoContainer
      ensures !AnyUnreadable(events) && cosmosClient != null && !lookupFails ==>
                status == Processed(UpsertsBeforeFailure(|records|, failAt)) &&
                cosmosClient.docs == ApplyUpserts(old(cosmosClient.docs), records[..UpsertsBeforeFailure(|records|, failAt)])
    {
      var currentContainer: Container? := null;
      if cosmosClient != null && !lookupFails {
        currentContainer := cosmosClient;
      }
      var raised;
      raised, records := CollectRecords(events);
      if raised {
        return Raised, records;
      }
      if currentContainer != null {
        var upserted := 0;
        if |records| > 0 {
          upserted := currentContainer.UpsertAll(records, failAt);
        }
        status := Processed(upserted);
      } else {
        status := NoContainer;
      }
    }
  }
}

=== FILE: json.dfy ===
/**
 * JSON values as Python's `json.loads` hands them to the consumers, and the
 * dictionary operations the consumers apply to them.
 *
 * A Python dict keeps its keys in insertion order, so an object is an
 * association list: `d[k] = v` overwrites an existing key where it stands and
 * appends a new one at the end, `del d[k]` removes the entry and keeps the
 * others in order.
 */
module Json {
  import opened Wrappers

  /**
   * A decoded JSON value. A number written with a fraction or an exponent
   * becomes a Python float; it is kept here as the exact decimal
   * `digits * 10^-scale`.
   */
  datatype Value =
    | Null
    | Bool(b: bool)
    | Int(i: int)
    | Float(digits: int, scale: nat)
    | Str(s: string)
    | Arr(items: seq<Value>)
    | Obj(entries: seq<(string, Value)>)

  /** A Python dict from strings to JSON values, in insertion order. */
  type Dict = seq<(string, Value)>

  /** `d[k]` when `k in d`: the value of the first entry with key k. */
  function Get(d: Dict, k: string): Option<Value>
  {
    if d == [] then None
    else if d[0].0 == k then Some(d[0].1)
    else Get(d[1..], k)
  }

  /** Python's `d.get(k, default)`. */
  function GetOr(d: Dict, k: string, default: Value): Value
  {
    Get(d, k).GetOr(default)
  }

  /** Every key occurs once, as in every dict Python builds. */
  predicate UniqueKeys(d: Dict)
  {
    d == [] || (Get(d[1..], d[0].0).None? && UniqueKeys(d[1..]))
  }

  /** The set of keys of d. */
  function KeySet(d: Dict): (ks: set<string>)
    ensures forall k :: k in ks <==> Get(d, k).Some?
  {
    if d == [] then {} else {d[0].0} + KeySet(d[1..])
  }

  /** Looking a key up in `d + [e]` finds d's entry first, then e. */
  lemma {:induction false} GetAppend(d: Dict, e: (string, Value), k: string)
    ensures Get(d + [e], k) == if Get(d, k).Some? then Get(d, k) else if e.0 == k then Some(e.1) else None
  {
    if d != [] {
      assert (d + [e])[1..] == d[1..] + [e];
      GetAppend(d[1..], e, k);
    }
  }

  /** Appending an entry whose key is new keeps the keys unique. */
  lemma {:induction false} UniqueKeysAppend(d: Dict, e: (string, Value))
    ensures UniqueKeys(d) && Get(d, e.0).None? ==> UniqueKeys(d + [e])
  {
    if d != [] && UniqueKeys(d) && Get(d, e.0).None? {
      assert (d + [e])[1..] == d[1..] + [e];
      GetAppend(d[1..], e, d[0].0);
      UniqueKeysAppend(d[1..], e);
    }
  }

  /** Replaces the value of every entry with key k, keeping every entry where it stands. */
  function Overwrite(d: Dict, k: string, v: Value): (r: Dict)
    ensures |r| == |d|
    ensures forall k' :: Get(r, k') == if k' == k && Get(d, k).Some? then Some(v) else Get(d, k')
    ensures UniqueKeys(d) ==> UniqueKeys(r)
  {
    if d == [] then []
    else [(d[0].0, if d[0].0 == k then v else d[0].1)] + Overwrite(d[1..], k, v)
  }

  /** Python's `d[k] = v` on a copy of d. */
  function Set(d: Dict, k: string, v: Value): (r: Dict)
    ensures forall k' :: Get(r, k') == if k' == k then Some(v) else Get(d, k')
    ensures UniqueKeys(d) ==> UniqueKeys(r)
    ensures |r| == if Get(d, k).Some? then |d| else |d| + 1
  {
    if Get(d, k).Some? then Overwrite(d, k, v)
    else
      var r := d + [(k, v)];
      forall k' ensures Get(r, k') == if k' == k then Some(v) else Get(d, k') {
        GetAppend(d, (k, v), k');
      }
      UniqueKeysAppend(d, (k, v));
      r
  }

  /** Python's `if k in d: del d[k]` on a copy of d: the other entries keep their order. */
  function Delete(d: Dict, k: string): (r: Dict)
    ensures forall k' :: Get(r, k') == if k' == k then None else Get(d, k')
    ensures UniqueKeys(d) ==> UniqueKeys(r)
    ensures |r| <= |d|
  {
    if d == [] then []
    else if d[0].0 == k then Delete(d[1..], k)
    else [d[0]] + Delete(d[1..], k)
  }

  /** With unique keys, looking up the key of the i-th entry finds that entry. */
  lemma {:induction false} GetAtIndex(d: Dict, i: nat)
    requires UniqueKeys(d) && i < |d|
    ensures Get(d, d[i].0) == Some(d[i].1)
  {
    if i > 0 {
      GetAtIndex(d[1..], i - 1);
      assert d[1..][i - 1] == d[i];
    }
  }

  /** A key carried by no entry is not found. */
  lemma {:induction false} GetMissing(d: Dict, k: string)
    requires forall i :: 0 <= i < |d| ==> d[i].0 != k
    ensures Get(d, k).None?
  {
    if d != [] {
      assert forall i :: 0 <= i < |d[1..]| ==> d[1..][i] == d[i + 1];
      GetMissing(d[1..], k);
    }
  }

  /** Entries with pairwise distinct keys form a dict with unique keys. */
  lemma {:induction false} DistinctKeysAreUnique(d: Dict)
    requires forall i, j :: 0 <= i < j < |d| ==> d[i].0 != d[j].0
    ensures UniqueKeys(d)
  {
    if d != [] {
      assert forall i :: 0 <= i < |d[1..]| ==> d[1..][i] == d[i + 1];
      GetMissing(d[1..], d[0].0);
      DistinctKeysAreUnique(d[1..]);
    }
  }
}

=== FILE: pytext.dfy ===
/**
 * Python's `str()` of a decoded JSON value, as an f-string placeholder
 * renders it: `None`, `True`/`False`, decimal integers, floats in their
 * shortest fixed-point form (`1.0`, `641.82`), strings as they are, and lists
 * and dicts with their elements in `repr()` form.
 */
module PyText {
  import opened Json

  function DigitChar(n: nat): (c: char)
    requires n < 10
    ensures '0' <= c <= '9'
  {
    "0123456789"[n]
  }

  predicate AllDigits(s: string)
  {
    forall i :: 0 <= i < |s| ==> '0' <= s[i] <= '9'
  }

  /** `str(n)` for a non-negative Python int: its decimal digits, no leading zero. */
  function Decimal(n: nat): (s: string)
    ensures |s| > 0 && AllDigits(s)
    ensures s[0] == '0' ==> n == 0
  {
    if n < 10 then [DigitChar(n)] else Decimal(n / 10) + [DigitChar(n % 10)]
  }

  /** The number a string of decimal digits denotes. */
  function DecimalValue(s: string): nat
    requires AllDigits(s)
  {
    if s == [] then 0 else 10 * DecimalValue(s[..|s| - 1]) + (s[|s| - 1] - '0') as nat
  }

  /** Reading the digits `str(n)` prints gives back n. */
  lemma {:induction false} DecimalRoundTrip(n: nat)
    ensures DecimalValue(Decimal(n)) == n
  {
    var s := Decimal(n);
    if n >= 10 {
      DecimalRoundTrip(n / 10);
      assert s[..|s| - 1] == Decimal(n / 10);
    }
  }

  /** `str(i)` for any Python int. */
  function IntText(i: int): string
  {
    if i < 0 then "-" + Decimal(-i) else Decimal(i)
  }

  /** Appending a digit multiplies the value by ten and adds the digit. */
  lemma AppendDigit(s: string, c: char)
    requires AllDigits(s) && '0' <= c <= '9'
    ensures AllDigits(s + [c]) && DecimalValue(s + [c]) == 10 * DecimalValue(s) + (c - '0') as nat
  {
    assert (s + [c])[..|s|] == s;
  }

  /** A leading zero does not change the value of a digit string. */
  lemma {:induction false} LeadingZero(s: string)
    requires AllDigits(s)
    ensures AllDigits("0" + s) && DecimalValue("0" + s) == DecimalValue(s)
  {
    if s != [] {
      var init := s[..|s| - 1];
      LeadingZero(init);
      assert ("0" + s)[..|s|] == "0" + init;
    }
  }

  /** s with zeros put in front until it is at least w characters long. */
  function ZeroPad(s: string, w: nat): (r: string)
    ensures |r| >= w && |r| >= |s|
    ensures AllDigits(s) ==> AllDigits(r) && DecimalValue(r) == DecimalValue(s)
    decreases w - |s|
  {
    if |s| >= w then s
    else
      LeadingZero(if AllDigits(s) then s else "");
      ZeroPad("0" + s, w)
  }

  /** 10^n, the denominator of a decimal with n fraction digits. */
  function Pow10(n: nat): (p: nat)
    ensures p > 0
  {
    if n == 0 then 1 else 10 * Pow10(n - 1)
  }

  /**
   * s is the fixed-point text `a.b` of value * 10^-scale: digits, one point,
   * at least one digit on each side, and a.b denotes that number exactly
   * (cross-multiplied: (a.b digits) * 10^scale == value * 10^|b|).
   */
  predicate ReadsAsDecimal(s: string, value: nat, scale: nat)
  {
    exists k :: 0 < k < |s| - 1 && s[k] == '.' && AllDigits(s[..k]) && AllDigits(s[k + 1..]) &&
      DecimalValue(s[..k] + s[k + 1..]) * Pow10(scale) == value * Pow10(|s| - k - 1)
  }

  /** A text that reads as value at some scale reads as ten times value one place further. */
  lemma ScaleUp(s: string, value: nat, scale: nat)
    requires ReadsAsDecimal(s, value, scale)
    ensures ReadsAsDecimal(s, 10 * value, scale + 1)
  {
    var k :| 0 < k < |s| - 1 && s[k] == '.' && AllDigits(s[..k]) && AllDigits(s[k + 1..]) &&
      DecimalValue(s[..k] + s[k + 1..]) * Pow10(scale) == value * Pow10(|s| - k - 1);
    var x, p := DecimalValue(s[..k] + s[k + 1..]), Pow10(|s| - k - 1);
    TimesTen(x, Pow10(scale), value, p);
    assert x * Pow10(scale + 1) == (10 * value) * p;
  }

  lemma TimesTen(x: int, a: int, v: int, p: int)
    requires x * a == v * p
    ensures x * (10 * a) == (10 * v) * p
  {
    calc {
      x * (10 * a);
      10 * (x * a);
      10 * (v * p);
      (10 * v) * p;
    }
  }

  /** The fixed-point text of the non-negative decimal n * 10^-scale: at least one digit before the point. */
  function UnsignedFloatText(n: nat, scale: nat): string
  {
    if scale == 0 then Decimal(n) + ".0"
    else
      var t := ZeroPad(Decimal(n), scale + 1);
      t[..|t| - scale] + "." + t[|t| - scale..]
  }

  /** The unsigned text reads as n * 10^-scale. */
  lemma UnsignedFloatTextValue(n: nat, scale: nat)
    ensures ReadsAsDecimal(UnsignedFloatText(n, scale), n, scale)
  {
    DecimalRoundTrip(n);
    if scale == 0 {
      WholeText(Decimal(n));
    } else {
      PointInside(ZeroPad(Decimal(n), scale + 1), scale);
    }
  }

  /** Digits a, a point and digits b read as value * 10^-scale when ab * 10^scale == value * 10^|b|. */
  lemma PointBetween(a: string, b: string, value: nat, scale: nat)
    requires a != [] && b != [] && AllDigits(a) && AllDigits(b)
    requires DecimalValue(a + b) * Pow10(scale) == value * Pow10(|b|)
    ensures ReadsAsDecimal(a + "." + b, value, scale)
  {
    var s := a + "." + b;
    var k := |a|;
    assert s[..k] == a && s[k + 1..] == b;
  }

  /** Digits followed by ".0" read as their own value at scale 0. */
  lemma WholeText(d: string)
    requires AllDigits(d) && d != []
    ensures ReadsAsDecimal(d + ".0", DecimalValue(d), 0)
  {
    var x := DecimalValue(d);
    AppendDigit(d, '0');
    assert DecimalValue(d + "0") * Pow10(0) == x * Pow10(1) by {
      assert Pow10(1) == 10 * Pow10(0) == 10;
    }
    PointBetween(d, "0", x, 0);
    assert d + "." + "0" == d + ".0";
  }

  /** A point put scale places from the end of more than scale digits reads as their value at that scale. */
  lemma PointInside(t: string, scale: nat)
    requires AllDigits(t) && 0 < scale < |t|
    ensures ReadsAsDecimal(t[..|t| - scale] + "." + t[|t| - scale..], DecimalValue(t), scale)
  {
    var a, b := t[..|t| - scale], t[|t| - scale..];
    var x := DecimalValue(t);
    assert a + b == t && |b| == scale;
    assert DecimalValue(a + b) * Pow10(scale) == x * Pow10(|b|);
    PointBetween(a, b, x, scale);
  }

  /** `str(x)` for the float digits * 10^-scale: trailing fraction zeros dropped, at least one kept. */
  function FloatText(digits: int, scale: nat): string
    decreases scale
  {
    if scale > 0 && digits % 10 == 0 then FloatText(digits / 10, scale - 1)
    else if digits < 0 then "-" + UnsignedFloatText(-digits, scale)
    else UnsignedFloatText(digits, scale)
  }

  /** A non-negative float prints as a fixed-point text that denotes it exactly. */
  lemma {:induction false} NonNegativeFloatText(digits: nat, scale: nat)
    ensures ReadsAsDecimal(FloatText(digits, scale), digits, scale)
    decreases scale
  {
    var s := FloatText(digits, scale);
    if scale > 0 && digits % 10 == 0 {
      var q: nat := digits / 10;
      assert s == FloatText(q, scale - 1);
      assert digits == 10 * q;
      NonNegativeFloatText(q, scale - 1);
      ScaleUp(s, q, scale - 1);
    } else {
      assert s == UnsignedFloatText(digits, scale);
      UnsignedFloatTextValue(digits, scale);
    }
  }

  /** A negative float prints as '-' followed by the text of its magnitude. */
  lemma {:induction false} NegativeFloatText(digits: int, scale: nat)
    requires digits < 0
    ensures FloatText(digits, scale) == "-" + FloatText(-digits, scale)
    decreases scale
  {
    var m: nat := -digits;
    if scale > 0 && digits % 10 == 0 {
      var q := digits / 10;
      assert m % 10 == 0 && m / 10 == -q by {
        assert m == 10 * -q;
      }
      assert FloatText(m, scale) == FloatText(-q, scale - 1);
      NegativeFloatText(q, scale - 1);
    } else {
      assert scale == 0 || m % 10 != 0;
      assert FloatText(m, scale) == UnsignedFloatText(m, scale);
    }
  }

  /** The printed float denotes exactly digits * 10^-scale, after a '-' when it is negative. */
  lemma FloatTextValue(digits: int, scale: nat)
    ensures digits >= 0 ==> ReadsAsDecimal(FloatText(digits, scale), digits, scale)
    ensures digits < 0 ==>
              |FloatText(digits, scale)| > 0 && FloatText(digits, scale)[0] == '-' &&
              ReadsAsDecimal(FloatText(digits, scale)[1..], -digits, scale)
  {
    if digits >= 0 {
      NonNegativeFloatText(digits, scale);
    } else {
      NegativeFloatText(digits, scale);
      NonNegativeFloatText(-digits, scale);
      assert FloatText(digits, scale)[1..] == FloatText(-digits, scale);
    }
  }

  /** The parts joined with ", " between them, as Python's list and dict displays print. */
  function Join(parts: seq<string>): string
  {
    if parts == [] then "" else if |parts| == 1 then parts[0] else parts[0] + ", " + Join(parts[1..])
  }

  /** `repr()` of a string, in single quotes. */
  function Quoted(s: string): string
  {
    "'" + s + "'"
  }

  /** Python's `str(v)`, as `f"{v}"` renders it; strings inside lists and dicts print quoted. */
  function ToStr(v: Value): (s: string)
    ensures v.Null? ==> s == "None"
    ensures v.Bool? ==> s == (if v.b then "True" else "False")
    ensures v.Str? ==> s == v.s
    ensures v.Int? && v.i >= 0 ==> AllDigits(s) && DecimalValue(s) == v.i
    ensures v.Int? && v.i < 0 ==> |s| > 1 && s[0] == '-' && AllDigits(s[1..]) && DecimalValue(s[1..]) == -v.i
  {
    match v
    case Null => "None"
    case Bool(b) => if b then "True" else "False"
    case Int(i) =>
      var s := IntText(i);
      DecimalRoundTrip(if i < 0 then -i else i);
      assert i < 0 ==> s[1..] == Decimal(-i);
      s
    case Float(digits, scale) => FloatText(digits, scale)
    case Str(s) => s
    case Arr(items) =>
      "[" + Join(seq(|items|, j requires 0 <= j < |items| =>
                   if items[j].Str? then Quoted(items[j].s) else ToStr(items[j]))) + "]"
    case Obj(entries) =>
      "{" + Join(seq(|entries|, j requires 0 <= j < |entries| =>
                   Quoted(entries[j].0) + ": " +
                   (if entries[j].1.Str? then Quoted(entries[j].1.s) else ToStr(entries[j].1)))) + "}"
  }

  /** `str()` of a float is a fixed-point `a.b` that denotes it exactly, after a '-' when it is negative. */
  lemma FloatStr(digits: int, scale: nat)
    ensures digits >= 0 ==> ReadsAsDecimal(ToStr(Float(digits, scale)), digits, scale)
    ensures digits < 0 ==>
              var s := ToStr(Float(digits, scale));
              |s| > 0 && s[0] == '-' && ReadsAsDecimal(s[1..], -digits, scale)
  {
    assert ToStr(Float(digits, scale)) == FloatText(digits, scale);
    FloatTextValue(digits, scale);
  }

  /** The longest prefix of s made of decimal digits. */
  function LeadingDigits(s: string): (d: string)
    ensures AllDigits(d)
    ensures |d| <= |s| && d == s[..|d|]
  {
    if s == [] || !('0' <= s[0] <= '9') then [] else [s[0]] + LeadingDigits(s[1..])
  }

  /** The leading digits of digits followed by '-' are those digits. */
  lemma {:induction false} LeadingDigitsBeforeDash(d: string, rest: string)
    ensures AllDigits(d) ==> LeadingDigits(d + "-" + rest) == d
  {
    if d != [] && AllDigits(d) {
      assert (d + "-" + rest)[1..] == d[1..] + "-" + rest;
      LeadingDigitsBeforeDash(d[1..], rest);
    }
  }
}

=== FILE: readings.dfy ===
/**
 * What both consumers share: the delivered event, the reading decoded from
 * it, the document id synthesised from four of its fields, and the
 * classification verdict attached to every persisted record.
 */
module Readings {
  import opened Wrappers
  import opened Json
  import opened PyText

  /** The body of a delivered event, as the consumer reads it. */
  datatype Body =
    | Unreadable                  // the bytes are not UTF-8 text, so reading the body as a string raises
    | Text(json: Option<Value>)   // the text, decoded by json.loads; None when json.loads raises

  /** One event of a batch: the transport's sequence number for it and its body. */
  datatype Event = Event(sequenceNumber: nat, body: Body)

  /** The reading an event carries: its decoded payload when that is a JSON object. */
  function ReadingOf(ev: Event): Option<Dict>
  {
    match ev.body
    case Text(Some(Obj(entries))) => Some(entries)
    case _ => None
  }

  /** `sensor_data.get(k)`: the field's value, None when the key is absent. */
  function Field(reading: Dict, k: string): Value
  {
    GetOr(reading, k, Null)
  }

  /** The document id `f"{unit_number}-{time_in_cycles}-{event_timestamp}-{message_id}"`. */
  function SynthesizedId(reading: Dict): (id: string)
    ensures Field(reading, "unit_number").Int? && Field(reading, "unit_number").i >= 0 ==>
              DecimalValue(LeadingDigits(id)) == Field(reading, "unit_number").i
  {
    var unit := ToStr(Field(reading, "unit_number"));
    var rest := ToStr(Field(reading, "time_in_cycles")) + "-" +
                ToStr(Field(reading, "event_timestamp")) + "-" + ToStr(Field(reading, "message_id"));
    LeadingDigitsBeforeDash(unit, rest);
    unit + "-" + rest
  }

  /** Readings that agree on the four id fields get the same id, whatever else they carry. */
  lemma SameFieldsSameId(a: Dict, b: Dict)
    requires Field(a, "unit_number") == Field(b, "unit_number")
    requires Field(a, "time_in_cycles") == Field(b, "time_in_cycles")
    requires Field(a, "event_timestamp") == Field(b, "event_timestamp")
    requires Field(a, "message_id") == Field(b, "message_id")
    ensures SynthesizedId(a) == SynthesizedId(b)
  {
  }

  /** An absent field and an explicit JSON null both print as None in the id. */
  lemma AbsentFieldsPrintNone(reading: Dict)
    requires forall k :: k in {"unit_number", "time_in_cycles", "event_timestamp", "message_id"} ==> Field(reading, k) == Null
    ensures SynthesizedId(reading) == "None-None-None-None"
  {
  }

  /**
   * The id does not tell different readings apart: '-' both separates the
   * fields and occurs inside ISO timestamps, so two readings that differ in
   * their timestamp and message id can share one id (and one stored document).
   */
  lemma IdIsNotInjective()
    ensures var a := [("event_timestamp", Str("2024-05")), ("message_id", Str("m"))];
            var b := [("event_timestamp", Str("2024")), ("message_id", Str("05-m"))];
            Field(a, "event_timestamp") != Field(b, "event_timestamp") &&
            SynthesizedId(a) == SynthesizedId(b)
  {
    // The timestamp's own '-' takes the place of the separator.
    assert "2024-05" + "-" + "m" == "2024" + "-" + "05-m";
  }

  /** Whether a reading is anomalous and its score, as stored in the record. */
  datatype Verdict = Verdict(isAnomaly: Value, score: Value)

  /** The fail-open verdict `(False, -999.0)` used when the classification cannot be obtained. */
  const FailOpen := Verdict(Bool(false), Float(-999, 0))

  function Pow2(n: nat): nat
  {
    if n == 0 then 1 else 2 * Pow2(n - 1)
  }

  /**
   * The least integer magnitude that Python's int-to-float conversion rejects
   * with OverflowError: half an ulp above the largest double, (2^53 - 1) * 2^971,
   * which rounds (to even) up to 2^1024.
   */
  const FloatOverflowBound: int := (Pow2(54) - 1) * Pow2(970)

  /** Whether `float(i)` succeeds for the Python int i. */
  predicate ConvertsToFloat(i: int)
  {
    -FloatOverflowBound < i < FloatOverflowBound
  }
}

=== FILE: wrappers.dfy ===
/** The optional value used throughout the model, in place of Python's None. */
module Wrappers {

  datatype Option<+T> = None | Some(value: T) {

    /** The wrapped value, or `default` when there is none. */
    function GetOr(default: T): T {
      match this
      case Some(v) => v
      case None => default
    }
  }

  /** The value as a sequence of zero or one elements. */
  function AsSeq<T>(o: Option<T>): (s: seq<T>)
    ensures |s| <= 1
    ensures o.None? <==> s == []
    ensures o.Some? ==> s == [o.value]
  {
    match o
    case Some(x) => [x]
    case None => []
  }

  /** The results of f on the elements of s that give one, in order. */
  function FilterMap<T, U>(f: T -> Option<U>, s: seq<T>): (r: seq<U>)
    ensures |r| <= |s|
  {
    if s == [] then [] else AsSeq(f(s[0])) + FilterMap(f, s[1..])
  }

  /** Filter-mapping two consecutive parts gives the results of each part, in order. */
  lemma {:induction false} FilterMapAppend<T, U>(f: T -> Option<U>, a: seq<T>, b: seq<T>)
    ensures FilterMap(f, a + b) == FilterMap(f, a) + FilterMap(f, b)
  {
    if a != [] {
      assert (a + b)[0] == a[0] && (a + b)[1..] == a[1..] + b;
      FilterMapAppend(f, a[1..], b);
    } else {
      assert a + b == b;
    }
  }

  /** Extending a prefix by one element extends its results by that element's result, if any. */
  lemma FilterMapSnoc<T, U>(f: T -> Option<U>, s: seq<T>, i: nat)
    requires i < |s|
    ensures FilterMap(f, s[..i + 1]) == FilterMap(f, s[..i]) + AsSeq(f(s[i]))
  {
    assert s[..i + 1] == s[..i] + [s[i]];
    FilterMapAppend(f, s[..i], [s[i]]);
    assert [s[i]][1..] == [];
  }

  /** An element without a result changes nothing for the elements around it. */
  lemma FilterMapSkips<T, U>(f: T -> Option<U>, a: seq<T>, x: T, b: seq<T>)
    requires f(x).None?
    ensures FilterMap(f, a + [x] + b) == FilterMap(f, a) + FilterMap(f, b)
  {
    assert FilterMap(f, [x]) == [] by {
      assert [x][1..] == [];
    }
    FilterMapAppend(f, a, [x]);
    FilterMapAppend(f, a + [x], b);
  }

  /** Every result is the result of some element. */
  lemma {:induction false} FilterMapResults<T, U>(f: T -> Option<U>, s: seq<T>)
    ensures forall j :: 0 <= j < |FilterMap(f, s)| ==> exists i :: 0 <= i < |s| && f(s[i]) == Some(FilterMap(f, s)[j])
  {
    if s != [] {
      FilterMapResults(f, s[1..]);
      var r, head, tail := FilterMap(f, s), AsSeq(f(s[0])), FilterMap(f, s[1..]);
      assert r == head + tail;
      forall j | 0 <= j < |r| ensures exists i :: 0 <= i < |s| && f(s[i]) == Some(r[j]) {
        if j < |head| {
          assert f(s[0]) == Some(r[j]);
        } else {
          assert r[j] == tail[j - |head|];
          var i :| 0 <= i < |s[1..]| && f(s[1..][i]) == Some(tail[j - |head|]);
          assert s[1..][i] == s[i + 1];
          assert f(s[i + 1]) == Some(r[j]);
        }
      }
    } else {
      assert FilterMap(f, s) == [];
    }
  }
}
